=== FILE: README.md ===
# dygraphs axes plugin, modelled in Dafny

This project models the dygraphs `axes` plugin, which draws the axes of a chart. The plugin has three jobs:

- **`layout`** asks the area allocator for margins. It asks on the left for y1 and y3, on the right for y2 and y4, and at the bottom for the x axis band. It reports an error when the chart has more than four y axes.
- **`detachLabels` / `clearChart`** forget the three label collections (`xlabels_`, `ylabels_`, `axisHeaders_`).
- **`willDrawChart`** does the drawing:
  - It creates the axis header labels.
  - It creates one label per labelled y tick, placed in its axis' column and coloured for contrast.
  - It shifts the first y label up when it would collide with the x labels.
  - It creates the x tick labels, clamped into the canvas.
  - It strokes the y, y2 and x axis lines, snapped to half pixels.

The model has no DOM and no canvas. The plugin's inputs and outputs become values:

- Option lookups become immutable records (`Chart.ChartOptions`).
- Label elements become `Chart.Label` values that hold the style properties the plugin sets.
- The label collections are `LabelStore.Labels`.
- Stroked lines are `AxisLines.Segment` values.
- A draw pass is the pure function `Draw.WillDrawChart`. It maps the options, a `Draw.Frame` and the current collections to a `Draw.DrawOutcome`. The frame holds:
  - the plot area
  - the canvas size
  - the tick lists
  - the host's `toPercentXCoord(0)` and `toPercentYCoord(0, 0)`

  The outcome holds:
  - the new collections
  - the lines stroked
  - the exception the pass ended with, if any

JavaScript numbers appear as `JsNumbers.Num` wherever NaN can arise. A NaN can come from `parseInt` on a colour that is not hexadecimal, and from the host's coordinate conversions in at-zero mode. Comparisons with NaN are false there, as in JavaScript.

Modules, in dependency order:

- `JsNumbers`: `Math.round`, `halfUp` / `halfDown`, `parseInt(s, 16)` and `parseInt` of a rendered `"NNpx"` offset.
- `Chart`: the options, ticks and labels.
- `Contrast`: `idealTextColor`.
- `Layout`: the `layout` hook.
- `Placement`: the label columns, the vertical anchor of a y label and the horizontal clamp of an x label.
- `AxisLines`: the three axis lines.
- `LabelStore`: the label collections and the `detachLabels` / `clearChart` hooks.
- `Draw`: the `willDrawChart` hook.

A y label's top is the tick's y coordinate less half its axis' font size: 10 - 6 = 4 px for a tick at the top of an area that starts 10 px down with a 12 px font. It is clamped only at 0; see `Placement.YAnchorScenario`.

## Model

| member | source | states |
|---|---|---|
| JsNumbers.Round | src/plugins/axes.js:127-128 | Math.round yields the integer within half a unit of its argument, with ties going up |
| JsNumbers.HalfUp | src/plugins/axes.js:127 | halfUp moves a coordinate at most one pixel to the right, and always onto a half-pixel position |
| JsNumbers.HalfDown | src/plugins/axes.js:128 | halfDown moves a coordinate at most one pixel to the left, and always onto a half-pixel position |
| JsNumbers.RoundMonotone | src/plugins/axes.js:127-128 | rounding preserves order, so snapped coordinates keep the order of the unsnapped ones |
| JsNumbers.HalfUpUnique | src/plugins/axes.js:127 | a half-pixel coordinate in (x, x + 1] is exactly halfUp(x) |
| JsNumbers.HalfDownUnique | src/plugins/axes.js:128 | a half-pixel coordinate in (x - 1, x] is exactly halfDown(x) |
| JsNumbers.ParseIntOfNumber | src/plugins/axes.js:375-378 | reading back a label's `top` as an integer truncates toward zero: the result is at most one pixel from the stored top, on the side of zero |
| JsNumbers.Magnitude | src/plugins/axes.js:193-195 | a run of hexadecimal digits reads as a non-negative number, and as NaN exactly when the run is empty |
| JsNumbers.ParseIntHex | src/plugins/axes.js:193-195 | parseInt with radix 16 on the short channel strings is never infinite; it is NaN exactly when no hexadecimal digit follows the leading white space, the sign and an optional 0x |
| JsNumbers.ParseHexDigits | src/plugins/axes.js:193-195 | any two hexadecimal digits, upper or lower case, parse with radix 16 to 16 times the first digit's value plus the second's |
| JsNumbers.ParseHexPair | src/plugins/axes.js:188-195 | a byte written as two lower-case hexadecimal digits parses back to that byte |
| Contrast.Substring | src/plugins/axes.js:188-190 | a channel substring is the plain slice when the colour reaches its end, the rest of the colour when it ends inside the slice, and empty when the colour ends before it starts |
| Contrast.Channels | src/plugins/axes.js:186-197 | the three channels are never infinite, and a colour too short to reach a channel leaves that channel NaN ("#fff" has no blue) |
| Contrast.IdealTextColor | src/plugins/axes.js:185-204 | the text colour is always #000000 or #ffffff; it is #000000 exactly when all three channels parse and the weighted luminance exceeds 150 |
| Contrast.ChannelPair | src/plugins/axes.js:188-195 | each digit pair of a colour written as '#' and six hexadecimal digits (either case) parses to the byte it spells |
| Contrast.ChannelsOfHexColor | src/plugins/axes.js:186-197 | the channels read from any '#' + six-hexadecimal-digit colour, in either case, are the bytes its three digit pairs spell |
| Contrast.IdealTextColorOfHex | src/plugins/axes.js:199-203 | for every colour written as '#' and six hexadecimal digits, in either case, black text is chosen if and only if 299R + 587G + 114B > 150000, and white text otherwise |
| Contrast.GreyThreshold | src/plugins/axes.js:199-203 | on greys the text switches from white to black between 150 and 151 |
| Contrast.BlackAndWhite | src/plugins/axes.js:185-204 | a white background gets black text and a black one gets white text |
| Contrast.NonHexChannel | src/plugins/axes.js:193-195 | a channel starting with a character that is not white space, a sign or a hexadecimal digit parses to NaN |
| Contrast.NamedColourGetsWhite | src/plugins/axes.js:186-203 | any colour whose second character cannot start a hexadecimal number, such as a colour name like "black", has an unparseable red channel and always gets white text |
| Layout.TotalConcat | src/plugins/axes.js:47-95 | per-side totals and request counts add up over consecutive requests |
| Layout.ReserveIf | src/plugins/axes.js:50-53 | a guarded reservation requests its pixels on its own side exactly when the guard holds, and nothing on any other side |
| Layout.Layout | src/plugins/axes.js:47-95 | the too-many-axes error is raised exactly when there are more than four axes, and it reports the axis count; at most five margin requests are made |
| Layout.LayoutSide | src/plugins/axes.js:47-90 | the pixels requested on any one side are the sum of the drawn axes assigned to that side (y1 and y3 left, y2 and y4 right, x bottom), each counted only when its axis exists, and one request is made per such axis |
| Layout.LayoutTotals | src/plugins/axes.js:47-95 | left margin = y1's span if y1 is drawn, plus y3's if a drawn third axis exists; right margin = y2's and y4's spans likewise; bottom = the x band (explicit height, else font size + 2 ticks), requested exactly once, exactly when x is drawn |
| Layout.SingleAxisScenario | src/plugins/axes.js:47-95 | one 50 px y axis with 3 px ticks and a 12 px x font gives 56 px left, 18 px bottom, nothing right and no error |
| Placement.HeaderColumn | src/plugins/axes.js:212-245 | y1 labels end one tick size before the plot's left edge and y2 labels start one y2 tick size after its right edge; y3 (y4) shares y1's (y2's) column when that axis is hidden and is pushed further out by its own width and tick size when it is drawn |
| Placement.TickColumn | src/plugins/axes.js:331-355 | the tick loop's copy of the column rule, read through the tick's option getter, always agrees with the header loop's column for the same slot |
| Placement.ColumnsWithinReservation | src/plugins/axes.js:212-245 | with non-negative sizes, y1 labels end one tick size before the plot area and lie inside y1's reserved margin; y2 labels start one tick size after it and stay inside y2's margin; a drawn y1 pushes y3 fully outside it, still within the reserved left margin; a hidden y1 (y2) gives y3 (y4) the inner axis' column |
| Placement.Y4StartsInsideY2 | src/plugins/axes.js:233-245 | y4 is offset by its own width and tick size: when those are smaller than y2's label width, y4 labels start inside y2's labels |
| Placement.Y4PastReservation | src/plugins/axes.js:233-245 | when y4 is much wider than y2, its labels run past the right margin reserved for both |
| Placement.ClampTop | src/plugins/axes.js:322-323 | a label top is never negative and never above the computed top |
| Placement.YAnchor | src/plugins/axes.js:310-329 | a y label is either top-anchored, with its font and a 3 px margin inside the canvas and centred on the tick or clamped to 0, or bottom-anchored exactly when the clamped top plus font plus 3 px passes the canvas height |
| Placement.YAnchorScenario | src/plugins/axes.js:322-329 | a tick at the top of an area 10 px down with a 12 px font is anchored at 4 px; one that would start above the canvas is clamped to 0; one near the bottom of a short canvas is bottom-anchored |
| Placement.XPlacement | src/plugins/axes.js:432-443 | an x label never starts left of the canvas and, when it fits, never ends past the right edge; it is centred exactly when it fits around its tick, right-aligned flush to the edge exactly when it overflows right and the canvas is wide enough, and otherwise left-aligned at 0 |
| AxisLines.YLineRatio | src/plugins/axes.js:384-385 | the at-zero fraction for the y line lies in [0, 1]; it equals toPercentXCoord(0) when that is in range, and is 0 otherwise, NaN included |
| AxisLines.XLineRatio | src/plugins/axes.js:454-455 | the at-zero fraction for the x line is NaN exactly when toPercentYCoord(0, 0) is NaN; otherwise it lies in [0, 1], being the value itself when in range and 1 otherwise |
| AxisLines.Scale | src/plugins/axes.js:386 | a fraction in [0, 1] of a non-negative length lies within that length |
| AxisLines.SnapUpAlong | src/plugins/axes.js:386 | the snapped point is the half pixel in (p, p + 1] for p a fraction c along the width, and lies between the snapped left and right edges |
| AxisLines.SnapDownAlong | src/plugins/axes.js:456 | the snapped point is the half pixel in (p - 1, p] for p a fraction c along the height, and lies between the snapped top and bottom edges |
| AxisLines.YAxisX | src/plugins/axes.js:382-389 | the y line's x is halfUp of the area's left edge, or in at-zero mode the half pixel just right of the point where x = 0 falls (the left edge when zero is off the plot or NaN) |
| AxisLines.XAxisY | src/plugins/axes.js:452-459 | the x line's y is halfDown of the area's bottom edge, or in at-zero mode the half pixel just above the point where y = 0 falls (the bottom edge when zero is off the plot); it is NaN exactly when that point is NaN, and never infinite |
| AxisLines.YAxisLine | src/plugins/axes.js:391-398 | the y line is vertical at the y line's x, spans from the snapped top to the snapped bottom of the area, and uses y1's line colour and width |
| AxisLines.Y2AxisLine | src/plugins/axes.js:400-409 | the y2 line is vertical at halfDown of the area's right edge, runs from halfDown of the area's top to halfDown of its bottom, in y2's colour and width |
| AxisLines.XAxisLine | src/plugins/axes.js:449-463 | the x line is horizontal at the x line's y, spans from halfUp of the left edge to halfUp of the right edge, and uses x's colour and width |
| AxisLines.YAxisAtZeroPixel | src/plugins/axes.js:383-392 | in at-zero mode the y line is exactly halfUp of where x = 0 falls, whatever the y zero is |
| AxisLines.XAxisAtZeroPixel | src/plugins/axes.js:452-459 | in at-zero mode, for a non-NaN zero, the x line is exactly halfDown of where y = 0 falls |
| AxisLines.YAxisBetweenEdges | src/plugins/axes.js:382-389 | for a non-negative width, the y line stays between the snapped left and right edges of the plot area |
| AxisLines.XAxisBetweenEdges | src/plugins/axes.js:452-459 | for a non-negative height and a non-NaN zero position, the x line stays between the snapped top and bottom edges |
| LabelStore.DetachLabels | src/plugins/axes.js:97-111 | after detaching, all three label collections are empty |
| LabelStore.ClearChart | src/plugins/axes.js:113-115 | clearing leaves the collections as the constructor made them |
| LabelStore.DetachIdempotent | src/plugins/axes.js:97-115 | detaching or clearing twice is the same as doing it once |
| LabelStore.ExtendsTransitive | src/plugins/axes.js:266-267 | "only appends, except for moving the first y label" composes over successive passes |
| Draw.HeaderLabel | src/plugins/axes.js:248-263 | a header shows its axis' header text at the column the tick labels of that axis use, with the axis' own width and font size, in the axis' tick text colour for both text and border, with no vertical anchor, alignment or background set |
| Draw.ShownHeaders | src/plugins/axes.js:208-246 | the filter-and-map reference the header loop is proved equal to; its own contract states only that it yields no more headers than slots |
| Draw.HeaderLoop | src/plugins/axes.js:208-268 | the header loop emits exactly the headers of the slots below the axis count whose header is non-empty and whose axis is drawn, at most four, in slot order (equal to the filter-and-map reference over the slots up to the axis count); it returns from the whole pass exactly when there are more than four axes |
| Draw.YStyleFontSize | src/plugins/axes.js:159 | a y label's style font size is y2's only for a y2 tick on a chart with exactly two axes, and y1's for every other y tick |
| Draw.YLabel | src/plugins/axes.js:310-366 | a y label carries the tick text, sits in its slot's column, is anchored by the tick's own axis font size, has its axis' width and the style font size, is centred, and has the tick text colour as background with black text exactly on bright backgrounds, and no border colour |
| Draw.YTickStep | src/plugins/axes.js:272-308 | a tick throws exactly when it is labelled and its axis index is outside 0..3, and it gets a label exactly when it is labelled and its axis is known and drawn |
| Draw.FirstUnknown | src/plugins/axes.js:279-305 | locates the first labelled tick on an unknown axis: none before it, and it is one |
| Draw.PlacedYLabels | src/plugins/axes.js:272-367 | the reference list has one label per labelled tick on a known, drawn axis |
| Draw.YTickLoop | src/plugins/axes.js:270-367 | the y tick loop throws exactly when some labelled tick names an unknown axis, reporting that axis; the labels it leaves are the reference labels of the shown ticks before it, in order |
| Draw.CorrectBottomTick | src/plugins/axes.js:369-379 | an empty y label collection is a TypeError; otherwise only the first label may change, and only when it is top-anchored and its truncated top plus two y1 font sizes passes the canvas height, in which case it moves to half a font above the truncated top, never lower than before when its top and the font size are non-negative |
| Draw.XLabel | src/plugins/axes.js:428-443 | an x label carries the tick text one tick size below the plot area, with x's width and font size, and takes its left and alignment from the x clamp: centred, flush right or flush left; it sets no text, background or border colour |
| Draw.Labelled | src/plugins/axes.js:416 | the labelled ticks are exactly the ticks that carry a label (membership and count) |
| Draw.XTickLoop | src/plugins/axes.js:412-447 | the x tick loop's i-th label is the x label of the i-th labelled tick, so there is one per labelled tick in tick order, each inside the canvas when x labels fit |
| Draw.XPart | src/plugins/axes.js:412-464 | x labels are appended and the x line, at the x line's y, drawn exactly when x is drawn; nothing else changes |
| Draw.YPart | src/plugins/axes.js:270-410 | the y part only extends the collections; on an error no line is drawn; a completed part leaves the old y labels plus the reference labels, corrected with y1's font size, draws the y line at the y line's x, the y2 line exactly for two axes, and the x line and the x labels exactly when x is drawn; the TypeError occurs exactly when nothing was placed into an empty collection |
| Draw.WillDrawChart | src/plugins/axes.js:117-467 | a pass with x, y and y2 all hidden changes nothing; more than four axes add headers only; a pass only extends the collections, and one that reaches the header loop adds exactly the reference headers of the slots up to the axis count, even when the y ticks then throw; the y line is drawn exactly when the pass completes with y ticks, and the x line exactly when it completes with x drawn; the y2 line only for two axes; an unknown-axis error names the first offending tick |
| Draw.FreshDrawCounts | src/plugins/axes.js:270-447 | a completed pass from empty collections makes one y label per shown y tick, one x label per labelled x tick when x is drawn, and at most four headers, equal to the reference headers of the slots up to the axis count |
| Draw.CompletedPassYLabels | src/plugins/axes.js:369-398 | a pass that reaches y ticks, none on an unknown axis, with some y label to correct completes; it leaves the old y labels followed by one per shown tick, with the bottom-tick correction applied using y1's font size whatever axis the first label is on, and draws the y line |
| Draw.UnknownAxisThrows | src/plugins/axes.js:117-305 | a pass throws on an unknown axis if and only if it reaches the y ticks and a labelled one names an axis outside 0..3; the y labels before that tick are kept |
| Draw.MissingBottomTickThrows | src/plugins/axes.js:369-375 | from empty collections, in a pass that reaches the y ticks (x, y or y2 drawn and at most four axes), the TypeError occurs if and only if there are y ticks, none labelled on an unknown axis and none shown |
| Draw.TooManyAxesStopsAtHeaders | src/plugins/axes.js:208-246 | with more than four axes a pass adds the headers and nothing else, in slot order as the reference gives them, and every shown slot's header is among them |
| Draw.ClearThenDraw | src/plugins/axes.js:97-117 | a pass after clearChart does not depend on what was drawn before |
| Draw.Y3TakesY1Column | src/plugins/axes.js:335-344 | a labelled y3 tick is shown in y1's column when y1 is hidden |
| Draw.UnknownAxisScenario | src/plugins/axes.js:279-305 | a tick on axis 7 after a shown y1 tick throws, keeping the first label and drawing no x labels |

## Left out

- DOM and canvas effects are not modelled: element creation, class names, `innerHTML`, `borderRadius`, appending to the container, and the `context.save` / `beginPath` / `stroke` calls. Labels and segments record only the positions, sizes, colours and alignment the plugin sets.
- The host's collaborators are inputs, not computations: the area allocator, `g.error`, the plot area, the tick lists, `toPercentXCoord(0)`, `toPercentYCoord(0, 0)` and the option lookup.
- Finite numbers are exact rationals, so IEEE-754 rounding is not modelled. The contrast threshold and `Math.round` are exact where JavaScript could round at a boundary.
- JsNumbers.ParseIntOfNumber: assumes the number is printed in positional notation. A top small or large enough for JavaScript to print in exponent form would parse differently.
- `toString` and `activate` only name the plugin and its hooks; they hold no logic.
- A tick's `axis` is an integer. A missing axis on a labelled y tick throws in the source, as any index outside 0..3 does in the model.
- Chart.ChartOptions: an `xAxisHeight` given as any falsy value is 0, and an absent or falsy `axisLabelHeader` is the empty string.
- The commented-out tick-mark drawing code is not modelled.
- JsNumbers.ParseIntHex: a string of 257 or more significant hexadecimal digits overflows to Infinity in IEEE-754 arithmetic; the model's exact magnitude stays finite. The plugin only parses two-character channel strings, where this cannot occur.
- Strings are sequences of Unicode code points, while JavaScript's `substring` and `parseInt` index UTF-16 code units. They differ only on colours holding characters outside the Basic Multilingual Plane, which are malformed colours in any case.

=== FILE: axis_lines.dfy ===
/** The axis baselines stroked by `willDrawChart`: their end points,
    snapped to half pixels, with the "draw axes at zero" fallbacks. */
module AxisLines {
  import opened JsNumbers
  import opened Chart

  /** One stroked segment, its colour and width. Coordinates are JavaScript
      numbers because the x axis line can end up at NaN. */
  datatype Segment = Segment(x0: Num, y0: Num, x1: Num, y1: Num, color: string, width: real)

  /** The fraction at which the vertical y axis line is drawn in at-zero mode:
      toPercentXCoord(0) when it lies in [0, 1], else 0 (also for NaN). */
  function YLineRatio(r: Num): (c: real)
    ensures 0.0 <= c <= 1.0
    ensures r.Fin? && 0.0 <= r.v <= 1.0 ==> c == r.v
    ensures !(r.Fin? && 0.0 <= r.v <= 1.0) ==> c == 0.0
  {
    if Gt(r, 1.0) || Lt(r, 0.0) || r == NaN then 0.0 else r.v
  }

  /** The fraction at which the horizontal x axis line is drawn in at-zero
      mode: toPercentYCoord(0, 0) when it lies in [0, 1], else 1 -- except
      NaN, which no comparison catches and which is passed through. */
  function XLineRatio(r: Num): (c: Num)
    ensures c == NaN <==> r == NaN
    ensures c.Fin? ==> 0.0 <= c.v <= 1.0
    ensures r.Fin? && 0.0 <= r.v <= 1.0 ==> c == r
    ensures r != NaN && !(r.Fin? && 0.0 <= r.v <= 1.0) ==> c == Fin(1.0)
  {
    if Gt(r, 1.0) || Lt(r, 0.0) then Fin(1.0) else r
  }

  /** A fraction of a non-negative length stays within it. */
  lemma Scale(c: real, len: real)
    requires 0.0 <= c <= 1.0 && len >= 0.0
    ensures 0.0 <= c * len <= len
  {
    assert c * len <= 1.0 * len;
  }

  /** halfUp of the point a fraction `c` of the way along a length: between
      the snapped ends of the length when the length is non-negative. */
  function SnapUpAlong(start: real, c: real, len: real): (r: real)
    requires 0.0 <= c <= 1.0
    ensures IsHalfPixel(r)
    ensures start + c * len < r <= start + c * len + 1.0
    ensures len >= 0.0 ==> HalfUp(start) <= r <= HalfUp(start + len)
  {
    var p := start + c * len;
    if len >= 0.0 then
      Scale(c, len);
      RoundMonotone(start, p);
      RoundMonotone(p, start + len);
      HalfUp(p)
    else HalfUp(p)
  }

  /** halfDown of the point a fraction `c` of the way along a length. */
  function SnapDownAlong(start: real, c: real, len: real): (r: real)
    requires 0.0 <= c <= 1.0
    ensures IsHalfPixel(r)
    ensures start + c * len - 1.0 < r <= start + c * len
    ensures len >= 0.0 ==> HalfDown(start) <= r <= HalfDown(start + len)
  {
    var p := start + c * len;
    if len >= 0.0 then
      Scale(c, len);
      RoundMonotone(start, p);
      RoundMonotone(p, start + len);
      HalfDown(p)
    else HalfDown(p)
  }

  /** The x coordinate of the y axis line: the half pixel just right of the
      plot's left edge, or in at-zero mode of the point where x = 0 falls
      (the left edge when zero is off the plot). */
  function YAxisX(g: ChartOptions, area: Area, xZero: Num): (ax: real)
    ensures IsHalfPixel(ax)
    ensures !g.drawAxesAtZero ==> ax == HalfUp(area.x)
    ensures g.drawAxesAtZero ==>
              area.x + YLineRatio(xZero) * area.w < ax <= area.x + YLineRatio(xZero) * area.w + 1.0
  {
    if g.drawAxesAtZero then SnapUpAlong(area.x, YLineRatio(xZero), area.w) else HalfUp(area.x)
  }

  /** The y coordinate of the x axis line; NaN exactly when the at-zero
      fraction is NaN. */
  function XAxisY(g: ChartOptions, area: Area, yZero: Num): (ay: Num)
    ensures ay == NaN <==> g.drawAxesAtZero && yZero == NaN
    ensures ay != PosInf && ay != NegInf
    ensures ay.Fin? ==> IsHalfPixel(ay.v)
    ensures !g.drawAxesAtZero ==> ay == Fin(HalfDown(area.y + area.h))
    ensures g.drawAxesAtZero && yZero != NaN ==>
              && XLineRatio(yZero).Fin? && ay.Fin?
              && area.y + XLineRatio(yZero).v * area.h - 1.0 < ay.v <= area.y + XLineRatio(yZero).v * area.h
  {
    if g.drawAxesAtZero then
      match XLineRatio(yZero)
      case Fin(r) => Fin(SnapDownAlong(area.y, r, area.h))
      case _ => NaN
    else Fin(HalfDown(area.y + area.h))
  }

  /** The y1 line: vertical, from the top to the bottom of the plot area. */
  function YAxisLine(g: ChartOptions, area: Area, xZero: Num): (s: Segment)
    ensures s.x0 == s.x1 == Fin(YAxisX(g, area, xZero))
    ensures s.y0 == Fin(HalfDown(area.y)) && s.y1 == Fin(HalfDown(area.y + area.h))
    ensures s.color == g.y1.lineColor && s.width == g.y1.lineWidth
  {
    var axisX := YAxisX(g, area, xZero);
    Segment(Fin(axisX), Fin(HalfDown(area.y)), Fin(axisX), Fin(HalfDown(area.y + area.h)),
            g.y1.lineColor, g.y1.lineWidth)
  }

  /** The y2 line: vertical at the right edge, snapped with halfDown (not halfUp). */
  function Y2AxisLine(g: ChartOptions, area: Area): (s: Segment)
    ensures s.x0 == s.x1 == Fin(HalfDown(area.x + area.w))
    ensures s.y0 == Fin(HalfDown(area.y)) && s.y1 == Fin(HalfDown(area.y + area.h))
    ensures s.color == g.y2.lineColor && s.width == g.y2.lineWidth
  {
    var x := HalfDown(area.x + area.w);
    Segment(Fin(x), Fin(HalfDown(area.y)), Fin(x), Fin(HalfDown(area.y + area.h)),
            g.y2.lineColor, g.y2.lineWidth)
  }

  /** The x line: horizontal across the plot area. */
  function XAxisLine(g: ChartOptions, area: Area, yZero: Num): (s: Segment)
    ensures s.y0 == s.y1 == XAxisY(g, area, yZero)
    ensures s.x0 == Fin(HalfUp(area.x)) && s.x1 == Fin(HalfUp(area.x + area.w))
    ensures s.color == g.x.lineColor && s.width == g.x.lineWidth
  {
    var axisY := XAxisY(g, area, yZero);
    Segment(Fin(HalfUp(area.x)), axisY, Fin(HalfUp(area.x + area.w)), axisY, g.x.lineColor, g.x.lineWidth)
  }

  /** In at-zero mode the y line sits exactly on halfUp of where x = 0
      falls, whatever toPercentYCoord(0, 0) gives. */
  lemma YAxisAtZeroPixel(g: ChartOptions, area: Area, xZero: Num)
    requires g.drawAxesAtZero
    ensures YAxisX(g, area, xZero) == HalfUp(area.x + YLineRatio(xZero) * area.w)
  {
    HalfUpUnique(area.x + YLineRatio(xZero) * area.w, YAxisX(g, area, xZero));
  }

  /** In at-zero mode, for a non-NaN zero, the x line sits exactly on
      halfDown of where y = 0 falls. */
  lemma XAxisAtZeroPixel(g: ChartOptions, area: Area, yZero: Num)
    requires g.drawAxesAtZero && yZero != NaN
    ensures XLineRatio(yZero).Fin?
    ensures XAxisY(g, area, yZero) == Fin(HalfDown(area.y + XLineRatio(yZero).v * area.h))
  {
    HalfDownUnique(area.y + XLineRatio(yZero).v * area.h, XAxisY(g, area, yZero).v);
  }

  /** The y line stays between the snapped left and right edges of a plot
      area of non-negative width. */
  lemma YAxisBetweenEdges(g: ChartOptions, area: Area, xZero: Num)
    requires area.w >= 0.0
    ensures area.x < YAxisX(g, area, xZero) <= area.x + area.w + 1.0
    ensures HalfUp(area.x) <= YAxisX(g, area, xZero) <= HalfUp(area.x + area.w)
  {
    RoundMonotone(area.x, area.x + area.w);
  }

  /** The x line stays between the snapped top and bottom edges whenever
      toPercentYCoord(0, 0) is not NaN. */
  lemma XAxisBetweenEdges(g: ChartOptions, area: Area, yZero: Num)
    requires area.h >= 0.0 && yZero != NaN
    ensures XAxisY(g, area, yZero).Fin?
    ensures area.y - 1.0 < XAxisY(g, area, yZero).v <= area.y + area.h
    ensures HalfDown(area.y) <= XAxisY(g, area, yZero).v <= HalfDown(area.y + area.h)
  {
    RoundMonotone(area.y, area.y + area.h);
  }
}

=== FILE: chart.dfy ===
/** The values the axes plugin reads from its host chart and the label
    descriptors it produces. Option lookups become fields of immutable
    records; DOM label elements become `Label` values. */
module Chart {

  datatype Option<+T> = None | Some(value: T)

  /** The options the plugin resolves per axis ('x', 'y', 'y2', 'y3', 'y4').
      An absent or empty `axisLabelHeader` is the empty string. */
  datatype AxisOptions = AxisOptions(
    drawAxis: bool,
    labelWidth: real,
    tickSize: real,
    fontSize: real,
    header: string,
    tickTextColor: string,
    lineColor: string,
    lineWidth: real)

  /** The four value-axis slots; tick.axis 0..3 selects y1..y4. */
  datatype Slot = Y1 | Y2 | Y3 | Y4

  function Index(s: Slot): (i: nat)
    ensures i < 4
  {
    match s
    case Y1 => 0
    case Y2 => 1
    case Y3 => 2
    case Y4 => 3
  }

  /** The slot a tick's axis index names, if any. */
  function SlotOf(axis: int): (s: Option<Slot>)
    ensures s.Some? <==> 0 <= axis < 4
    ensures s.Some? ==> Index(s.value) == axis
  {
    if axis == 0 then Some(Y1)
    else if axis == 1 then Some(Y2)
    else if axis == 2 then Some(Y3)
    else if axis == 3 then Some(Y4)
    else None
  }

  /** The chart-wide view of the options. `xAxisHeight` is 0 when the option is
      unset (every falsy value of the option reads as 0 here). The per-slot
      records exist for every slot whatever `numAxes` is, as option lookup
      always yields a value. */
  datatype ChartOptions = ChartOptions(
    x: AxisOptions,
    y1: AxisOptions,
    y2: AxisOptions,
    y3: AxisOptions,
    y4: AxisOptions,
    numAxes: nat,
    xAxisHeight: real,
    drawAxesAtZero: bool)

  function AxisOf(g: ChartOptions, s: Slot): AxisOptions {
    match s
    case Y1 => g.y1
    case Y2 => g.y2
    case Y3 => g.y3
    case Y4 => g.y4
  }

  /** The plot area rectangle in pixels. */
  datatype Area = Area(x: real, y: real, w: real, h: real)

  /** A tick as handed over by the tick producer; `axis` is only read for y ticks. */
  datatype Tick = Tick(pos: real, text: Option<string>, axis: int)

  /** How a label is placed vertically: `top` set, `bottom: 0` set, or neither. */
  datatype VAnchor = Unanchored | Top(top: real) | BottomEdge

  /** The `textAlign` style of a label, `Unaligned` when it is not set. */
  datatype Align = Unaligned | Centered | FlushLeft | FlushRight

  /** A label element: its text and the style properties the plugin sets. */
  datatype Label = Label(
    text: string,
    left: real,
    anchor: VAnchor,
    width: real,
    fontSize: real,
    align: Align,
    color: Option<string>,
    background: Option<string>,
    borderColor: Option<string>)
}

=== FILE: contrast.dfy ===
/** idealTextColor: the foreground colour the plugin picks for a y tick label
    whose background is the axis' tickTextColor. */
module Contrast {
  import opened JsNumbers

  const Black: string := "#000000"
  const White: string := "#ffffff"

  /** String.prototype.substring for from <= to: both ends clamped to the length. */
  function Substring(s: string, from: nat, to: nat): (t: string)
    requires from <= to
    ensures |t| <= to - from
    ensures to <= |s| ==> t == s[from..to]
    ensures from < |s| < to ==> t == s[from..]
    ensures |s| <= from ==> t == []
  {
    var a := if from < |s| then from else |s|;
    var b := if to < |s| then to else |s|;
    s[a..b]
  }

  /** The red, green and blue channels read from characters 1-2, 3-4 and 5-6.
      None is ever infinite, and a colour too short to reach a channel leaves
      that channel NaN ("#fff" has no blue). */
  function Channels(color: string): (c: (Num, Num, Num))
    ensures c.0 != PosInf && c.0 != NegInf && c.1 != PosInf && c.1 != NegInf
    ensures c.2 != PosInf && c.2 != NegInf
    ensures |color| <= 1 ==> c.0 == NaN
    ensures |color| <= 3 ==> c.1 == NaN
    ensures |color| <= 5 ==> c.2 == NaN
  {
    (ParseIntHex(Substring(color, 1, 3)),
     ParseIntHex(Substring(color, 3, 5)),
     ParseIntHex(Substring(color, 5, 7)))
  }

  /** The background is bright: every channel parsed, and the weighted
      luminance 0.299R + 0.587G + 0.114B exceeds 150, written over integers. */
  predicate Bright(color: string) {
    var (r, g, b) := Channels(color);
    r.Fin? && g.Fin? && b.Fin?
    && 299.0 * r.v + 587.0 * g.v + 114.0 * b.v > 150000.0
  }

  /** Black on bright backgrounds, white otherwise; a channel that does not
      parse makes the luminance NaN, and the comparison with NaN picks white. */
  function IdealTextColor(bgColor: string): (fg: string)
    ensures fg == Black || fg == White
    ensures fg == Black <==> Bright(bgColor)
  {
    var (r, g, b) := Channels(bgColor);
    match (r, g, b)
    case (Fin(rv), Fin(gv), Fin(bv)) =>
      var bgDelta := rv * 0.299 + gv * 0.587 + bv * 0.114;
      if 255.0 - bgDelta < 105.0 then Black else White
    case _ => White
  }

  /** '#' followed by six hexadecimal digits, in either case. */
  predicate IsHexColor(c: string) {
    |c| == 7 && c[0] == '#' && forall i :: 1 <= i < 7 ==> IsHexDigit(c[i])
  }

  /** The byte spelt by the two digits at positions i and i + 1. */
  function ChannelByte(c: string, i: nat): (v: nat)
    requires IsHexColor(c) && 1 <= i <= 5
    ensures v < 256
  {
    16 * HexDigitValue(c[i]) + HexDigitValue(c[i + 1])
  }

  /** The digit pair at positions i and i + 1 of a hexadecimal colour parses
      to its byte. */
  lemma ChannelPair(c: string, i: nat)
    requires IsHexColor(c) && 1 <= i <= 5
    ensures ParseIntHex(Substring(c, i, i + 2)) == Fin(ChannelByte(c, i) as real)
  {
    var p := c[i..i + 2];
    assert Substring(c, i, i + 2) == p;
    assert p[0] == c[i] && p[1] == c[i + 1];
    assert !IsJsWhiteSpace(p[0]);
    assert TrimStart(p) == p;
    ParseHexDigits(p);
  }

  /** The channels read from a hexadecimal colour are the bytes its digit
      pairs spell. */
  lemma ChannelsOfHexColor(c: string)
    requires IsHexColor(c)
    ensures Channels(c) == (Fin(ChannelByte(c, 1) as real), Fin(ChannelByte(c, 3) as real), Fin(ChannelByte(c, 5) as real))
  {
    ChannelPair(c, 1);
    ChannelPair(c, 3);
    ChannelPair(c, 5);
  }

  /** For every hexadecimal colour the choice is exactly the integer threshold
      299R + 587G + 114B > 150000. */
  lemma {:induction false} IdealTextColorOfHex(c: string)
    requires IsHexColor(c)
    ensures IdealTextColor(c) == Black <==> 299 * ChannelByte(c, 1) + 587 * ChannelByte(c, 3) + 114 * ChannelByte(c, 5) > 150000
    ensures IdealTextColor(c) == White <==> 299 * ChannelByte(c, 1) + 587 * ChannelByte(c, 3) + 114 * ChannelByte(c, 5) <= 150000
  {
    ChannelsOfHexColor(c);
  }

  /** "#rrggbb" in lower-case hexadecimal. */
  function HexColor(r: nat, g: nat, b: nat): (c: string)
    requires r < 256 && g < 256 && b < 256
    ensures IsHexColor(c)
    ensures ChannelByte(c, 1) == r && ChannelByte(c, 3) == g && ChannelByte(c, 5) == b
  {
    var c := "#" + HexPair(r) + HexPair(g) + HexPair(b);
    assert c == ['#'] + HexPair(r) + HexPair(g) + HexPair(b);
    assert c[1..3] == HexPair(r) && c[3..5] == HexPair(g) && c[5..7] == HexPair(b);
    c
  }

  /** On greys the output switches between 150 and 151, the luminance at
      which 255 - L crosses the threshold 105. */
  lemma GreyThreshold(v: nat)
    requires v < 256
    ensures IdealTextColor(HexColor(v, v, v)) == Black <==> v > 150
  {
    IdealTextColorOfHex(HexColor(v, v, v));
  }

  lemma BlackAndWhite()
    ensures IdealTextColor(White) == Black
    ensures IdealTextColor(Black) == White
  {
    assert HexColor(255, 255, 255) == White;
    assert HexColor(0, 0, 0) == Black;
    IdealTextColorOfHex(HexColor(255, 255, 255));
    IdealTextColorOfHex(HexColor(0, 0, 0));
  }

  /** A channel whose first character is neither white space, a sign nor a
      hexadecimal digit does not parse. */
  lemma NonHexChannel(s: string)
    requires |s| > 0 && !IsJsWhiteSpace(s[0]) && !IsHexDigit(s[0]) && s[0] != '-' && s[0] != '+'
    ensures ParseIntHex(s) == NaN
  {
    assert TrimStart(s) == s;
    assert SplitSign(s) == (false, s);
    assert StripHexPrefix(s) == s;
  }

  /** A colour whose second character cannot start a hexadecimal number --
      a colour name such as "black" or "white", or "rgb(...)" -- has a red
      channel that does not parse, so it always gets white text. */
  lemma NamedColourGetsWhite(color: string)
    requires |color| >= 2
    requires !IsJsWhiteSpace(color[1]) && !IsHexDigit(color[1]) && color[1] != '-' && color[1] != '+'
    ensures IdealTextColor(color) == White
  {
    var red := Substring(color, 1, 3);
    assert red[0] == color[1];
    NonHexChannel(red);
    assert Channels(color).0 == NaN;
  }
}

=== FILE: draw.dfy ===
/** The `willDrawChart` hook: axis headers, y tick labels with the
    bottom-tick correction, x tick labels and the axis lines, appended to the
    label collections in the order the source produces them. */
module Draw {
  import opened JsNumbers
  import opened Chart
  import opened Contrast
  import opened Placement
  import opened AxisLines
  import opened LabelStore

  /** What a draw pass reads from the event and the host besides the options:
      the plot area, the canvas size, the tick lists (an absent list is
      empty) and the host's toPercentXCoord(0) and toPercentYCoord(0, 0). */
  datatype Frame = Frame(
    area: Area,
    canvasWidth: real,
    canvasHeight: real,
    xticks: seq<Tick>,
    yticks: seq<Tick>,
    xZero: Num,
    yZero: Num)

  /** The two ways a draw pass throws: a labelled y tick on an axis other than
      0..3, and reading the first y label when there is none (a TypeError). */
  datatype DrawError = UnknownAxis(axis: int) | MissingBottomTick

  /** The label collections after the pass, the lines stroked, and the
      exception the pass ended with, if any. */
  datatype DrawOutcome = DrawOutcome(
    labels: Labels,
    yLine: Option<Segment>,
    y2Line: Option<Segment>,
    xLine: Option<Segment>,
    error: Option<DrawError>)

  // ---------------------------------------------------------------------
  // Axis headers
  // ---------------------------------------------------------------------

  predicate HeaderShown(g: ChartOptions, s: Slot) {
    AxisOf(g, s).header != "" && AxisOf(g, s).drawAxis
  }

  /** The header element of slot s: its own width and font size, its tick
      text colour as text and border colour, at the slot's column. */
  function HeaderLabel(g: ChartOptions, area: Area, s: Slot): (l: Label)
    ensures l.left == TickColumn(g, area, s)
    ensures l.text == AxisOf(g, s).header
    ensures l.color == l.borderColor == Some(AxisOf(g, s).tickTextColor)
    ensures l.width == AxisOf(g, s).labelWidth && l.fontSize == AxisOf(g, s).fontSize
    ensures l.anchor == Unanchored && l.align == Unaligned && l.background == None
  {
    var a := AxisOf(g, s);
    Label(a.header, HeaderColumn(g, area, s), Unanchored, a.labelWidth, a.fontSize, Unaligned,
          Some(a.tickTextColor), None, Some(a.tickTextColor))
  }

  datatype HeaderRun = HeaderRun(labels: seq<Label>, stopped: bool)

  /** The value-axis slots in header order. */
  const AllSlots: seq<Slot> := [Y1, Y2, Y3, Y4]

  /** The reference for the header loop: the headers of the shown slots of
      `ss`, in order. */
  function ShownHeaders(g: ChartOptions, area: Area, ss: seq<Slot>): (ls: seq<Label>)
    ensures |ls| <= |ss|
  {
    if |ss| == 0 then []
    else if HeaderShown(g, ss[0]) then [HeaderLabel(g, area, ss[0])] + ShownHeaders(g, area, ss[1..])
    else ShownHeaders(g, area, ss[1..])
  }

  /** Where the header loop stops reading slots when started at i: at the
      axis count, but never past the fourth slot (nor before i). */
  function HeaderEnd(g: ChartOptions, i: nat): (e: nat)
    ensures i <= 4 ==> i <= e <= 4
  {
    if g.numAxes < 4 then (if i <= g.numAxes then g.numAxes else i) else 4
  }

  /** The header loop from index i on: one header per configured axis slot
      with header text that is drawn, and a return from the whole pass
      (`stopped`) on reaching index 4 below the axis count. */
  function HeaderLoop(g: ChartOptions, area: Area, i: nat): (r: HeaderRun)
    decreases g.numAxes - i
    ensures r.stopped <==> i < g.numAxes && 4 < g.numAxes
    ensures i <= 4 ==> |r.labels| <= 4 - i
    ensures i >= 4 ==> r.labels == []
    ensures i <= 4 ==> r.labels == ShownHeaders(g, area, AllSlots[i..HeaderEnd(g, i)])
    ensures forall l :: l in r.labels ==>
              exists s: Slot :: i <= Index(s) < g.numAxes && HeaderShown(g, s) && l == HeaderLabel(g, area, s)
    ensures forall s: Slot :: i <= Index(s) < g.numAxes && HeaderShown(g, s) ==> HeaderLabel(g, area, s) in r.labels
  {
    if i >= g.numAxes then HeaderRun([], false)
    else match SlotOf(i)
      case None => HeaderRun([], true)
      case Some(s) =>
        assert AllSlots[i] == s;
        assert AllSlots[i..HeaderEnd(g, i)] == [s] + AllSlots[i + 1..HeaderEnd(g, i + 1)];
        var rest := HeaderLoop(g, area, i + 1);
        if HeaderShown(g, s) then
          HeaderRun([HeaderLabel(g, area, s)] + rest.labels, rest.stopped)
        else rest
  }

  // ---------------------------------------------------------------------
  // y tick labels
  // ---------------------------------------------------------------------

  /** A labelled tick whose axis index names no slot: the pass throws on it. */
  predicate UnknownAxisTick(t: Tick) {
    t.text.Some? && SlotOf(t.axis).None?
  }

  /** A labelled tick on a known, drawn axis: it gets a label. */
  predicate ShownYTick(g: ChartOptions, t: Tick) {
    t.text.Some? && SlotOf(t.axis).Some? && AxisOf(g, SlotOf(t.axis).value).drawAxis
  }

  /** The font size a y label's style gets: y2's only for a y2 tick on a chart
      with exactly two axes, y1's for every other y tick. */
  function YStyleFontSize(g: ChartOptions, s: Slot): (fs: real)
    ensures fs == g.y1.fontSize || fs == g.y2.fontSize
    ensures g.numAxes == 2 && s == Y2 ==> fs == AxisOf(g, s).fontSize
    ensures s != Y2 || g.numAxes != 2 ==> fs == g.y1.fontSize
  {
    if g.numAxes == 2 && s == Y2 then g.y2.fontSize else g.y1.fontSize
  }

  /** The label of a y tick on slot s. Its vertical anchor uses the slot's own
      font size; its background is the tick text colour and its text colour
      the contrasting black or white. */
  function YLabel(g: ChartOptions, f: Frame, t: Tick, s: Slot): (l: Label)
    requires t.text.Some?
    ensures l.text == t.text.value
    ensures l.left == HeaderColumn(g, f.area, s)
    ensures l.anchor == YAnchor(f.area, t.pos, AxisOf(g, s).fontSize, f.canvasHeight)
    ensures l.anchor.Top? || l.anchor.BottomEdge?
    ensures l.anchor.Top? ==> 0.0 <= l.anchor.top && l.anchor.top + AxisOf(g, s).fontSize + 3.0 <= f.canvasHeight
    ensures l.background == Some(AxisOf(g, s).tickTextColor)
    ensures l.color == Some(Black) || l.color == Some(White)
    ensures l.color == Some(Black) <==> Bright(AxisOf(g, s).tickTextColor)
    ensures l.width == AxisOf(g, s).labelWidth && l.align == Centered
    ensures l.fontSize == YStyleFontSize(g, s)
    ensures l.borderColor == None
  {
    var a := AxisOf(g, s);
    Label(t.text.value, TickColumn(g, f.area, s), YAnchor(f.area, t.pos, a.fontSize, f.canvasHeight),
          a.labelWidth, YStyleFontSize(g, s), Centered,
          Some(IdealTextColor(a.tickTextColor)), Some(a.tickTextColor), None)
  }

  datatype YStep = Skip | Emit(placed: Label) | Throw(axis: int)

  /** One iteration of the y tick loop. */
  function YTickStep(g: ChartOptions, f: Frame, t: Tick): (r: YStep)
    ensures r.Throw? <==> UnknownAxisTick(t)
    ensures r.Throw? ==> r.axis == t.axis
    ensures r.Emit? <==> ShownYTick(g, t)
    ensures r.Emit? ==> r.placed == YLabel(g, f, t, SlotOf(t.axis).value)
  {
    if t.text.None? then Skip
    else match SlotOf(t.axis)
      case None => Throw(t.axis)
      case Some(s) => if !AxisOf(g, s).drawAxis then Skip else Emit(YLabel(g, f, t, s))
  }

  /** The index of the first tick the loop throws on, or |ts| if none. */
  function FirstUnknown(ts: seq<Tick>): (k: nat)
    ensures k <= |ts|
    ensures forall j :: 0 <= j < k ==> !UnknownAxisTick(ts[j])
    ensures k < |ts| ==> UnknownAxisTick(ts[k])
  {
    if |ts| == 0 then 0
    else if UnknownAxisTick(ts[0]) then 0
    else 1 + FirstUnknown(ts[1..])
  }

  /** How many ticks are labelled and on a known, drawn axis. */
  function CountShown(g: ChartOptions, ts: seq<Tick>): nat {
    if |ts| == 0 then 0 else (if ShownYTick(g, ts[0]) then 1 else 0) + CountShown(g, ts[1..])
  }

  /** The labels of the shown ticks, in tick order: the reference the loop is
      compared with. */
  function PlacedYLabels(g: ChartOptions, f: Frame, ts: seq<Tick>): (ls: seq<Label>)
    ensures |ls| == CountShown(g, ts)
  {
    if |ts| == 0 then []
    else if ShownYTick(g, ts[0]) then [YLabel(g, f, ts[0], SlotOf(ts[0].axis).value)] + PlacedYLabels(g, f, ts[1..])
    else PlacedYLabels(g, f, ts[1..])
  }

  datatype YRun = YRun(labels: seq<Label>, error: Option<DrawError>)

  /** The y tick loop: labels for the shown ticks up to the first labelled
      tick on an unknown axis, where it throws; nothing is produced for that
      tick or any after it. */
  function YTickLoop(g: ChartOptions, f: Frame, ts: seq<Tick>): (r: YRun)
    ensures r.error.Some? <==> FirstUnknown(ts) < |ts|
    ensures r.error.Some? ==> r.error.value == UnknownAxis(ts[FirstUnknown(ts)].axis)
    ensures r.labels == PlacedYLabels(g, f, ts[..FirstUnknown(ts)])
  {
    if |ts| == 0 then YRun([], None)
    else
      assert ts[..FirstUnknown(ts)] == [] || ts[..FirstUnknown(ts)][1..] == ts[1..][..FirstUnknown(ts[1..])];
      match YTickStep(g, f, ts[0])
      case Throw(a) => YRun([], Some(UnknownAxis(a)))
      case Skip => YTickLoop(g, f, ts[1..])
      case Emit(l) =>
        var rest := YTickLoop(g, f, ts[1..]);
        YRun([l] + rest.labels, rest.error)
  }

  /** The "bottom tick" correction applied to the whole y label collection:
      none to correct is a TypeError; a first label anchored by `top` whose
      truncated top lies within two font heights of the canvas bottom is moved
      up to half a font height above that truncated top; a bottom-anchored
      first label (its `top` is empty, parsed as NaN) and all other labels
      are left alone. `fontSize` is y1's, whatever axis the label is on. */
  function CorrectBottomTick(ys: seq<Label>, fontSize: real, canvasHeight: real): (r: Option<seq<Label>>)
    ensures r.None? <==> |ys| == 0
    ensures r.Some? ==> |r.value| == |ys| && r.value[1..] == ys[1..]
    ensures r.Some? && !ys[0].anchor.Top? ==> r.value == ys
    ensures r.Some? && ys[0].anchor.Top? ==>
              var t := ParseIntOfNumber(ys[0].anchor.top) as real;
              if t + 2.0 * fontSize > canvasHeight
              then r.value[0] == ys[0].(anchor := Top(t - fontSize / 2.0))
              else r.value[0] == ys[0]
    ensures r.Some? && ys[0].anchor.Top? && ys[0].anchor.top >= 0.0 && fontSize >= 0.0 ==>
              r.value[0].anchor.Top? && r.value[0].anchor.top <= ys[0].anchor.top
  {
    if |ys| == 0 then None
    else
      var bottomTick := ys[0];
      match bottomTick.anchor
      case Top(top) =>
        var bottom := ParseIntOfNumber(top) as real + fontSize;
        if bottom > canvasHeight - fontSize then
          Some([bottomTick.(anchor := Top(ParseIntOfNumber(top) as real - fontSize / 2.0))] + ys[1..])
        else Some(ys)
      case _ => Some(ys)
  }

  // ---------------------------------------------------------------------
  // x tick labels
  // ---------------------------------------------------------------------

  /** The label of a labelled x tick: below the plot area by the x tick size,
      with the x axis' width and font size, clamped into the canvas. */
  function XLabel(g: ChartOptions, f: Frame, t: Tick): (l: Label)
    requires t.text.Some?
    ensures l.text == t.text.value
    ensures l.anchor == Top(f.area.y + f.area.h + g.x.tickSize)
    ensures l.left == XPlacement(f.area, t.pos, g.x.labelWidth, f.canvasWidth).left
    ensures l.align == XPlacement(f.area, t.pos, g.x.labelWidth, f.canvasWidth).align
    ensures l.width == g.x.labelWidth && l.fontSize == g.x.fontSize
    ensures l.left >= 0.0
    ensures g.x.labelWidth <= f.canvasWidth ==> l.left + l.width <= f.canvasWidth
    ensures l.color == None && l.background == None && l.borderColor == None
  {
    var p := XPlacement(f.area, t.pos, g.x.labelWidth, f.canvasWidth);
    Label(t.text.value, p.left, Top(f.area.y + f.area.h + g.x.tickSize), g.x.labelWidth, g.x.fontSize,
          p.align, None, None, None)
  }

  function CountLabelled(ts: seq<Tick>): nat {
    if |ts| == 0 then 0 else (if ts[0].text.Some? then 1 else 0) + CountLabelled(ts[1..])
  }

  /** The labelled ticks, in order: exactly the ticks of `ts` that carry a label. */
  function Labelled(ts: seq<Tick>): (ls: seq<Tick>)
    ensures |ls| == CountLabelled(ts)
    ensures forall i :: 0 <= i < |ls| ==> ls[i].text.Some?
    ensures forall t :: t in ls <==> t in ts && t.text.Some?
  {
    if |ts| == 0 then []
    else if ts[0].text.Some? then [ts[0]] + Labelled(ts[1..])
    else Labelled(ts[1..])
  }

  /** The x tick loop: the i-th label is that of the i-th labelled tick. */
  function XTickLoop(g: ChartOptions, f: Frame, ts: seq<Tick>): (r: seq<Label>)
    ensures |r| == |Labelled(ts)| == CountLabelled(ts)
    ensures forall i :: 0 <= i < |r| ==> r[i] == XLabel(g, f, Labelled(ts)[i])
    ensures forall i :: 0 <= i < |r| ==>
              && r[i].left >= 0.0
              && (g.x.labelWidth <= f.canvasWidth ==> r[i].left + r[i].width <= f.canvasWidth)
              && r[i].anchor == Top(f.area.y + f.area.h + g.x.tickSize)
              && r[i].width == g.x.labelWidth
  {
    if |ts| == 0 then []
    else if ts[0].text.None? then XTickLoop(g, f, ts[1..])
    else
      var rest := XTickLoop(g, f, ts[1..]);
      assert Labelled(ts) == [ts[0]] + Labelled(ts[1..]);
      [XLabel(g, f, ts[0])] + rest
  }

  // ---------------------------------------------------------------------
  // The whole pass
  // ---------------------------------------------------------------------

  /** The pass does anything at all only when x, y or y2 is drawn; y3 and y4
      alone do not count. */
  predicate AnyMainAxisDrawn(g: ChartOptions) {
    g.x.drawAxis || g.y1.drawAxis || g.y2.drawAxis
  }

  /** The x part of the pass: x labels and the x line, when x is drawn. */
  function XPart(g: ChartOptions, f: Frame, s: Labels, yLine: Option<Segment>, y2Line: Option<Segment>): (out: DrawOutcome)
    ensures out.error.None? && out.yLine == yLine && out.y2Line == y2Line
    ensures out.xLine.Some? <==> g.x.drawAxis
    ensures out.labels.ylabels == s.ylabels && out.labels.headers == s.headers
    ensures g.x.drawAxis ==> out.labels.xlabels == s.xlabels + XTickLoop(g, f, f.xticks)
    ensures !g.x.drawAxis ==> out.labels == s
    ensures out.xLine == (if g.x.drawAxis then Some(XAxisLine(g, f.area, f.yZero)) else None)
  {
    if g.x.drawAxis then
      DrawOutcome(s.(xlabels := s.xlabels + XTickLoop(g, f, f.xticks)), yLine, y2Line,
                  Some(XAxisLine(g, f.area, f.yZero)), None)
    else DrawOutcome(s, yLine, y2Line, None, None)
  }

  /** The y part of the pass, once there are y ticks: labels, the correction,
      then the y line and, for exactly two axes, the y2 line. */
  function YPart(g: ChartOptions, f: Frame, s: Labels): (out: DrawOutcome)
    requires |f.yticks| > 0
    ensures Extends(s, out.labels)
    ensures out.labels.headers == s.headers
    ensures out.error.Some? ==> out.labels.xlabels == s.xlabels && out.yLine.None? && out.y2Line.None? && out.xLine.None?
    ensures out.error.None? ==> out.yLine.Some? && (out.y2Line.Some? <==> g.numAxes == 2) && (out.xLine.Some? <==> g.x.drawAxis)
    ensures out.error.Some? && out.error.value.UnknownAxis? ==>
              FirstUnknown(f.yticks) < |f.yticks| && out.error.value.axis == f.yticks[FirstUnknown(f.yticks)].axis
    ensures out.error == Some(MissingBottomTick) <==>
              FirstUnknown(f.yticks) == |f.yticks| && |s.ylabels| == 0 && CountShown(g, f.yticks) == 0
    ensures out.error.None? ==> |out.labels.ylabels| == |s.ylabels| + CountShown(g, f.yticks)
    ensures out.error.None? ==>
              && CorrectBottomTick(s.ylabels + PlacedYLabels(g, f, f.yticks), g.y1.fontSize, f.canvasHeight).Some?
              && out.labels.ylabels
                 == CorrectBottomTick(s.ylabels + PlacedYLabels(g, f, f.yticks), g.y1.fontSize, f.canvasHeight).value
    ensures out.error.None? ==> out.yLine == Some(YAxisLine(g, f.area, f.xZero))
    ensures out.error.None? ==> out.y2Line == (if g.numAxes == 2 then Some(Y2AxisLine(g, f.area)) else None)
    ensures out.error.None? ==> out.xLine == (if g.x.drawAxis then Some(XAxisLine(g, f.area, f.yZero)) else None)
    ensures out.error.None? && g.x.drawAxis ==> out.labels.xlabels == s.xlabels + XTickLoop(g, f, f.xticks)
    ensures out.error.None? && !g.x.drawAxis ==> out.labels.xlabels == s.xlabels
  {
    var run := YTickLoop(g, f, f.yticks);
    var s2 := s.(ylabels := s.ylabels + run.labels);
    if run.error.Some? then DrawOutcome(s2, None, None, None, run.error)
    else
      assert f.yticks[..FirstUnknown(f.yticks)] == f.yticks;
      match CorrectBottomTick(s2.ylabels, g.y1.fontSize, f.canvasHeight)
      case None => DrawOutcome(s2, None, None, None, Some(MissingBottomTick))
      case Some(ys) =>
        var yLine := Some(YAxisLine(g, f.area, f.xZero));
        var y2Line := if g.numAxes == 2 then Some(Y2AxisLine(g, f.area)) else None;
        XPart(g, f, s2.(ylabels := ys), yLine, y2Line)
  }

  function WillDrawChart(g: ChartOptions, f: Frame, s: Labels): (out: DrawOutcome)
    ensures !AnyMainAxisDrawn(g) ==> out == DrawOutcome(s, None, None, None, None)
    ensures AnyMainAxisDrawn(g) && g.numAxes > 4 ==>
              && out.labels.xlabels == s.xlabels && out.labels.ylabels == s.ylabels
              && out.yLine.None? && out.y2Line.None? && out.xLine.None? && out.error.None?
    ensures Extends(s, out.labels)
    ensures AnyMainAxisDrawn(g) ==> out.labels.headers == s.headers + ShownHeaders(g, f.area, AllSlots[..HeaderEnd(g, 0)])
    ensures out.y2Line.Some? ==> g.numAxes == 2 && out.yLine.Some?
    ensures out.yLine.Some? <==> AnyMainAxisDrawn(g) && g.numAxes <= 4 && |f.yticks| > 0 && out.error.None?
    ensures out.xLine.Some? <==> AnyMainAxisDrawn(g) && g.numAxes <= 4 && g.x.drawAxis && out.error.None?
    ensures out.error.Some? ==> out.labels.xlabels == s.xlabels
    ensures out.error.Some? && out.error.value.UnknownAxis? ==>
              FirstUnknown(f.yticks) < |f.yticks| && out.error.value.axis == f.yticks[FirstUnknown(f.yticks)].axis
  {
    if !AnyMainAxisDrawn(g) then DrawOutcome(s, None, None, None, None)
    else
      var hs := HeaderLoop(g, f.area, 0);
      var s1 := s.(headers := s.headers + hs.labels);
      if hs.stopped then DrawOutcome(s1, None, None, None, None)
      else if |f.yticks| > 0 then YPart(g, f, s1)
      else XPart(g, f, s1, None, None)
  }

  // ---------------------------------------------------------------------
  // Properties of whole passes
  // ---------------------------------------------------------------------

  /** A pass that starts from empty collections and completes produces one y
      label per labelled y tick on a known, drawn axis, and (when x is drawn)
      one x label per labelled x tick. */
  lemma FreshDrawCounts(g: ChartOptions, f: Frame)
    requires AnyMainAxisDrawn(g) && g.numAxes <= 4
    requires WillDrawChart(g, f, NoLabels).error.None?
    ensures |WillDrawChart(g, f, NoLabels).labels.ylabels| == CountShown(g, f.yticks)
    ensures |WillDrawChart(g, f, NoLabels).labels.xlabels| == (if g.x.drawAxis then CountLabelled(f.xticks) else 0)
    ensures |WillDrawChart(g, f, NoLabels).labels.headers| <= 4
    ensures WillDrawChart(g, f, NoLabels).labels.headers == ShownHeaders(g, f.area, AllSlots[..g.numAxes])
  {
  }

  /** A pass with y ticks, none on an unknown axis, and some y label to
      correct completes; it leaves the old y labels followed by one
      label per shown tick, with the bottom-tick correction applied to the
      whole collection using y1's font size -- whichever axis the first label
      belongs to -- and draws the y line at the zero or left-edge column. */
  lemma CompletedPassYLabels(g: ChartOptions, f: Frame, s: Labels)
    requires AnyMainAxisDrawn(g) && g.numAxes <= 4 && |f.yticks| > 0
    requires FirstUnknown(f.yticks) == |f.yticks|
    requires |s.ylabels| > 0 || CountShown(g, f.yticks) > 0
    ensures WillDrawChart(g, f, s).error.None?
    ensures CorrectBottomTick(s.ylabels + PlacedYLabels(g, f, f.yticks), g.y1.fontSize, f.canvasHeight).Some?
    ensures WillDrawChart(g, f, s).labels.ylabels
         == CorrectBottomTick(s.ylabels + PlacedYLabels(g, f, f.yticks), g.y1.fontSize, f.canvasHeight).value
    ensures WillDrawChart(g, f, s).yLine == Some(YAxisLine(g, f.area, f.xZero))
  {
  }

  /** A pass throws on an unknown axis exactly when it gets as far as the y
      ticks and one of them is labelled with an axis index outside 0..3; the
      y labels it leaves are those of the shown ticks before that one. */
  lemma UnknownAxisThrows(g: ChartOptions, f: Frame, s: Labels)
    ensures (WillDrawChart(g, f, s).error.Some? && WillDrawChart(g, f, s).error.value.UnknownAxis?)
        <==> AnyMainAxisDrawn(g) && g.numAxes <= 4 && FirstUnknown(f.yticks) < |f.yticks|
    ensures WillDrawChart(g, f, s).error.Some? && WillDrawChart(g, f, s).error.value.UnknownAxis? ==>
              WillDrawChart(g, f, s).labels.ylabels
                == s.ylabels + PlacedYLabels(g, f, f.yticks[..FirstUnknown(f.yticks)])
  {
  }

  /** From empty collections the pass throws a TypeError at the correction
      exactly when there are y ticks, none on an unknown axis, and none of
      them is shown. */
  lemma MissingBottomTickThrows(g: ChartOptions, f: Frame)
    ensures WillDrawChart(g, f, NoLabels).error == Some(MissingBottomTick)
        <==> AnyMainAxisDrawn(g) && g.numAxes <= 4 && |f.yticks| > 0
             && FirstUnknown(f.yticks) == |f.yticks| && CountShown(g, f.yticks) == 0
  {
  }

  /** With more than four axes the pass returns from the header loop: the
      headers of the first four slots are added and nothing else happens. */
  lemma TooManyAxesStopsAtHeaders(g: ChartOptions, f: Frame, s: Labels)
    requires AnyMainAxisDrawn(g) && g.numAxes > 4
    ensures WillDrawChart(g, f, s).labels == s.(headers := s.headers + HeaderLoop(g, f.area, 0).labels)
    ensures forall t: Slot :: HeaderShown(g, t) ==> HeaderLabel(g, f.area, t) in WillDrawChart(g, f, s).labels.headers
    ensures WillDrawChart(g, f, s).labels.headers == s.headers + ShownHeaders(g, f.area, AllSlots)
  {
    assert AllSlots[0..HeaderEnd(g, 0)] == AllSlots;
  }

  /** Clearing before drawing makes the pass independent of what was drawn
      before. */
  lemma ClearThenDraw(g: ChartOptions, f: Frame, s: Labels, s': Labels)
    ensures WillDrawChart(g, f, ClearChart(s)) == WillDrawChart(g, f, ClearChart(s'))
  {
  }

  /** A y3 tick when y1 is not drawn sits exactly in y1's column. */
  lemma Y3TakesY1Column(g: ChartOptions, f: Frame, t: Tick)
    requires !g.y1.drawAxis && g.y3.drawAxis && t.text.Some? && t.axis == 2
    ensures YTickStep(g, f, t).Emit?
    ensures YTickStep(g, f, t).placed.left == f.area.x - g.y1.labelWidth - g.y1.tickSize
  {
  }

  /** A tick on axis 7 after a shown y1 tick: the pass throws, keeping the
      first tick's label and none for the second. */
  lemma UnknownAxisScenario(g: ChartOptions, f: Frame)
    requires g.y1.drawAxis && g.numAxes == 1
    requires f.yticks == [Tick(0.5, Some("10"), 0), Tick(0.0, Some("0"), 7)]
    ensures WillDrawChart(g, f, NoLabels).error == Some(UnknownAxis(7))
    ensures |WillDrawChart(g, f, NoLabels).labels.ylabels| == 1
    ensures WillDrawChart(g, f, NoLabels).labels.xlabels == []
  {
    assert FirstUnknown(f.yticks) == 1 by {
      assert UnknownAxisTick(f.yticks[1]);
      assert !UnknownAxisTick(f.yticks[0]);
    }
    assert f.yticks[..1] == [f.yticks[0]];
    assert CountShown(g, f.yticks[..1]) == 1 by {
      assert ShownYTick(g, f.yticks[0]);
      assert f.yticks[..1][1..] == [];
    }
  }
}

=== FILE: js_numbers.dfy ===
/** JavaScript number behaviour that the axes plugin relies on: comparisons
    involving NaN and the infinities, Math.round, and the two uses of
    parseInt (on a hexadecimal colour pair, and on a rendered "NNpx" offset).
    Finite numbers are exact rationals; IEEE-754 rounding is not modelled. */
module JsNumbers {

  /** A JavaScript number as far as this model needs to tell them apart. */
  datatype Num = Fin(v: real) | PosInf | NegInf | NaN

  /** `n > c` in JavaScript: false whenever n is NaN. */
  predicate Gt(n: Num, c: real) {
    match n
    case Fin(v) => v > c
    case PosInf => true
    case NegInf => false
    case NaN => false
  }

  /** `n < c` in JavaScript: false whenever n is NaN. */
  predicate Lt(n: Num, c: real) {
    match n
    case Fin(v) => v < c
    case PosInf => false
    case NegInf => true
    case NaN => false
  }

  /** Math.round on a finite number: the nearest integer, ties toward +infinity. */
  function Round(x: real): (r: int)
    ensures x - 0.5 < r as real <= x + 0.5
  {
    (x + 0.5).Floor
  }

  /** A coordinate that sits exactly half-way between two pixel boundaries. */
  predicate IsHalfPixel(r: real) {
    (r + 0.5).Floor as real == r + 0.5
  }

  /** halfUp: round, then move half a pixel towards +infinity. */
  function HalfUp(x: real): (r: real)
    ensures x < r <= x + 1.0
    ensures IsHalfPixel(r)
  {
    var k := Round(x);
    assert ((k + 1) as real).Floor == k + 1;
    k as real + 0.5
  }

  /** halfDown: round, then move half a pixel towards -infinity. */
  function HalfDown(x: real): (r: real)
    ensures x - 1.0 < r <= x
    ensures IsHalfPixel(r)
  {
    var k := Round(x);
    assert (k as real).Floor == k;
    k as real - 0.5
  }

  /** The half pixel in (x, x + 1] is unique, so it is halfUp(x). */
  lemma HalfUpUnique(x: real, r: real)
    requires IsHalfPixel(r) && x < r <= x + 1.0
    ensures r == HalfUp(x)
  {
    var k := (r + 0.5).Floor;
    assert Round(x) == k - 1;
  }

  /** The half pixel in (x - 1, x] is unique, so it is halfDown(x). */
  lemma HalfDownUnique(x: real, r: real)
    requires IsHalfPixel(r) && x - 1.0 < r <= x
    ensures r == HalfDown(x)
  {
    var k := (r + 0.5).Floor;
    assert Round(x) == k;
  }

  lemma RoundMonotone(x: real, y: real)
    requires x <= y
    ensures Round(x) <= Round(y)
  {
  }

  /** parseInt(String(x) + "px", 10) for a finite x written in positional
      notation: the digits before the decimal point, so truncation toward zero. */
  function ParseIntOfNumber(x: real): (r: int)
    ensures 0.0 <= x ==> r as real <= x < r as real + 1.0
    ensures x < 0.0 ==> r as real - 1.0 < x <= r as real
  {
    if x >= 0.0 then x.Floor else -((-x).Floor)
  }

  // ---------------------------------------------------------------------
  // parseInt(s, 16)
  // ---------------------------------------------------------------------

  predicate IsHexDigit(c: char) {
    ('0' <= c <= '9') || ('a' <= c <= 'f') || ('A' <= c <= 'F')
  }

  function HexDigitValue(c: char): (d: nat)
    requires IsHexDigit(c)
    ensures d < 16
  {
    if '0' <= c <= '9' then c as int - '0' as int
    else if 'a' <= c <= 'f' then c as int - 'a' as int + 10
    else c as int - 'A' as int + 10
  }

  /** The lower-case hexadecimal digit for d. */
  function HexChar(d: nat): (c: char)
    requires d < 16
    ensures IsHexDigit(c) && HexDigitValue(c) == d
    ensures c != 'x' && c != 'X'
  {
    if d < 10 then ('0' as int + d) as char else ('a' as int + d - 10) as char
  }

  /** White space and line terminators that parseInt skips before the digits
      (the StrWhiteSpaceChar production of ECMAScript). */
  predicate IsJsWhiteSpace(c: char) {
    c == '\t' || c == '\n' || c == '\U{000B}' || c == '\U{000C}' || c == '\r'
    || c == ' ' || c == '\U{00A0}' || c == '\U{1680}'
    || ('\U{2000}' <= c <= '\U{200A}')
    || c == '\U{2028}' || c == '\U{2029}' || c == '\U{202F}' || c == '\U{205F}'
    || c == '\U{3000}' || c == '\U{FEFF}'
  }

  function TrimStart(s: string): (t: string)
    ensures |t| <= |s| && t == s[|s| - |t|..]
    ensures |t| > 0 ==> !IsJsWhiteSpace(t[0])
    ensures forall i :: 0 <= i < |s| - |t| ==> IsJsWhiteSpace(s[i])
  {
    if |s| > 0 && IsJsWhiteSpace(s[0]) then TrimStart(s[1..]) else s
  }

  /** The longest prefix of s made of hexadecimal digits. */
  function LeadingHexDigits(s: string): (d: string)
    ensures d <= s
    ensures forall i :: 0 <= i < |d| ==> IsHexDigit(d[i])
    ensures |d| < |s| ==> !IsHexDigit(s[|d|])
  {
    if |s| == 0 || !IsHexDigit(s[0]) then [] else [s[0]] + LeadingHexDigits(s[1..])
  }

  /** The value of a string of hexadecimal digits, most significant first. */
  function HexValue(d: string): nat
    requires forall i :: 0 <= i < |d| ==> IsHexDigit(d[i])
  {
    if |d| == 0 then 0 else HexValue(d[..|d| - 1]) * 16 + HexDigitValue(d[|d| - 1])
  }

  /** The string after an optional sign, and whether that sign was '-'. */
  function SplitSign(s: string): (bool, string) {
    if |s| > 0 && s[0] == '-' then (true, s[1..])
    else if |s| > 0 && s[0] == '+' then (false, s[1..])
    else (false, s)
  }

  /** Drops a "0x" or "0X" prefix, as parseInt does for radix 16. */
  function StripHexPrefix(s: string): string {
    if |s| >= 2 && s[0] == '0' && (s[1] == 'x' || s[1] == 'X') then s[2..] else s
  }

  /** The unsigned value of a run of hexadecimal digits; NaN when there is none. */
  function Magnitude(digits: string): (r: Num)
    requires forall i :: 0 <= i < |digits| ==> IsHexDigit(digits[i])
    ensures r == NaN <==> |digits| == 0
    ensures r.Fin? ==> r.v >= 0.0
  {
    if |digits| == 0 then NaN else Fin(HexValue(digits) as real)
  }

  /** Unary minus on a JavaScript number. */
  function Negate(n: Num): Num {
    match n
    case Fin(v) => Fin(-v)
    case PosInf => NegInf
    case NegInf => PosInf
    case NaN => NaN
  }

  /** parseInt(s, 16): never an infinity; NaN exactly when no hexadecimal
      digit follows the white space, the sign and the optional 0x. */
  function ParseIntHex(s: string): (r: Num)
    ensures r != PosInf && r != NegInf
    ensures r == NaN <==> LeadingHexDigits(StripHexPrefix(SplitSign(TrimStart(s)).1)) == []
  {
    var (negative, unsigned) := SplitSign(TrimStart(s));
    var magnitude := Magnitude(LeadingHexDigits(StripHexPrefix(unsigned)));
    if negative then Negate(magnitude) else magnitude
  }

  /** Two lower-case hexadecimal digits for a byte value. */
  function HexPair(v: nat): (s: string)
    requires v < 256
    ensures |s| == 2 && IsHexDigit(s[0]) && IsHexDigit(s[1])
  {
    [HexChar(v / 16), HexChar(v % 16)]
  }

  /** Any two hexadecimal digits, upper or lower case, parse to the byte
      they spell, most significant digit first. */
  lemma ParseHexDigits(s: string)
    requires |s| == 2 && IsHexDigit(s[0]) && IsHexDigit(s[1])
    ensures ParseIntHex(s) == Fin((16 * HexDigitValue(s[0]) + HexDigitValue(s[1])) as real)
  {
    assert !IsJsWhiteSpace(s[0]);
    assert TrimStart(s) == s;
    assert SplitSign(s) == (false, s);
    assert StripHexPrefix(s) == s;
    assert LeadingHexDigits(s[2..]) == [];
    assert LeadingHexDigits(s[1..]) == [s[1]] + LeadingHexDigits(s[2..]);
    assert LeadingHexDigits(s) == s;
    assert s[..1] == [s[0]];
    assert HexValue([s[0]]) == HexDigitValue(s[0]) by {
      assert [s[0]][..0] == [];
    }
  }

  /** Parsing a formatted byte gives the byte back. */
  lemma ParseHexPair(v: nat)
    requires v < 256
    ensures ParseIntHex(HexPair(v)) == Fin(v as real)
  {
    var s := HexPair(v);
    assert !IsJsWhiteSpace(s[0]);
    assert TrimStart(s) == s;
    ParseHexDigits(s);
    assert 16 * HexDigitValue(s[0]) + HexDigitValue(s[1]) == v by {
      assert HexDigitValue(s[0]) == v / 16 && HexDigitValue(s[1]) == v % 16;
    }
  }
}

=== FILE: label_store.dfy ===
/** The three label collections the plugin owns (`xlabels_`, `ylabels_`,
    `axisHeaders_`) and the `detachLabels` / `clearChart` hooks. */
module LabelStore {
  import opened Chart

  datatype Labels = Labels(xlabels: seq<Label>, ylabels: seq<Label>, headers: seq<Label>)

  /** The collections as the constructor leaves them. */
  const NoLabels: Labels := Labels([], [], [])

  /** Removes every label from the container and forgets all three collections. */
  function DetachLabels(s: Labels): (r: Labels)
    ensures r.xlabels == [] && r.ylabels == [] && r.headers == []
  {
    NoLabels
  }

  /** The `clearChart` hook. */
  function ClearChart(s: Labels): (r: Labels)
    ensures r == NoLabels
  {
    DetachLabels(s)
  }

  lemma DetachIdempotent(s: Labels)
    ensures DetachLabels(DetachLabels(s)) == DetachLabels(s)
    ensures ClearChart(ClearChart(s)) == NoLabels
  {
  }

  /** `after` only adds labels to `before`: x labels and headers are extended
      at the end; y labels too, except that the first y label may have been
      moved by the bottom-tick correction. */
  predicate Extends(before: Labels, after: Labels) {
    && before.xlabels <= after.xlabels
    && before.headers <= after.headers
    && |before.ylabels| <= |after.ylabels|
    && (forall i :: 1 <= i < |before.ylabels| ==> after.ylabels[i] == before.ylabels[i])
  }

  lemma ExtendsTransitive(a: Labels, b: Labels, c: Labels)
    requires Extends(a, b) && Extends(b, c)
    ensures Extends(a, c)
  {
  }
}

=== FILE: layout.dfy ===
/** The `layout` hook: the margins the plugin asks the area allocator for,
    before the plot area exists. */
module Layout {
  import opened Chart

  datatype Side = LeftMargin | RightMargin | BottomMargin

  /** One reserveSpaceLeft / reserveSpaceRight / reserveSpaceBottom call. */
  datatype Reservation = Reservation(side: Side, px: real)

  /** The calls made in order, and the axis count reported through the
      host's error sink when there are too many axes. */
  datatype LayoutResult = LayoutResult(reservations: seq<Reservation>, tooManyAxes: Option<nat>)

  /** The space an axis' labels and ticks take beside the plot area. */
  function Span(a: AxisOptions): real {
    a.labelWidth + 2.0 * a.tickSize
  }

  /** The x axis band: the explicit height when set, else font size plus two tick lengths. */
  function XAxisHeight(g: ChartOptions): real {
    if g.xAxisHeight != 0.0 then g.xAxisHeight else g.x.fontSize + 2.0 * g.x.tickSize
  }

  /** The sum of all pixels requested on one side. */
  function Total(rs: seq<Reservation>, side: Side): real {
    if |rs| == 0 then 0.0
    else (if rs[0].side == side then rs[0].px else 0.0) + Total(rs[1..], side)
  }

  /** How many requests were made on one side. */
  function Count(rs: seq<Reservation>, side: Side): nat {
    if |rs| == 0 then 0
    else (if rs[0].side == side then 1 else 0) + Count(rs[1..], side)
  }

  lemma {:induction false} TotalConcat(a: seq<Reservation>, b: seq<Reservation>, side: Side)
    ensures Total(a + b, side) == Total(a, side) + Total(b, side)
    ensures Count(a + b, side) == Count(a, side) + Count(b, side)
    decreases |a|
  {
    if |a| == 0 {
      assert a + b == b;
    } else {
      assert (a + b)[1..] == a[1..] + b;
      TotalConcat(a[1..], b, side);
    }
  }

  /** A request for `px` on `side` when `cond` holds, nothing otherwise. */
  function ReserveIf(cond: bool, side: Side, px: real): (rs: seq<Reservation>)
    ensures forall on: Side :: Total(rs, on) == (if cond && on == side then px else 0.0)
    ensures forall on: Side :: Count(rs, on) == (if cond && on == side then 1 else 0)
  {
    if cond then
      var rs := [Reservation(side, px)];
      assert rs[1..] == [];
      rs
    else []
  }

  function Layout(g: ChartOptions): (r: LayoutResult)
    ensures r.tooManyAxes.Some? <==> g.numAxes > 4
    ensures r.tooManyAxes.Some? ==> r.tooManyAxes.value == g.numAxes
    ensures |r.reservations| <= 5
  {
    var reservations :=
      ReserveIf(g.y1.drawAxis, LeftMargin, Span(g.y1))
      + ReserveIf(g.x.drawAxis, BottomMargin, XAxisHeight(g))
      + ReserveIf(g.numAxes >= 2 && g.y2.drawAxis, RightMargin, Span(g.y2))
      + ReserveIf(g.numAxes >= 3 && g.y3.drawAxis, LeftMargin, Span(g.y3))
      + ReserveIf(g.numAxes >= 4 && g.y4.drawAxis, RightMargin, Span(g.y4));
    LayoutResult(reservations, if g.numAxes > 4 then Some(g.numAxes) else None)
  }

  /** The requests of `Layout`, in order. */
  lemma LayoutParts(g: ChartOptions)
    ensures Layout(g).reservations
         == ReserveIf(g.y1.drawAxis, LeftMargin, Span(g.y1))
          + ReserveIf(g.x.drawAxis, BottomMargin, XAxisHeight(g))
          + ReserveIf(g.numAxes >= 2 && g.y2.drawAxis, RightMargin, Span(g.y2))
          + ReserveIf(g.numAxes >= 3 && g.y3.drawAxis, LeftMargin, Span(g.y3))
          + ReserveIf(g.numAxes >= 4 && g.y4.drawAxis, RightMargin, Span(g.y4))
  {
  }

  /** The total requested on one side is the sum of the five guarded requests. */
  lemma {:induction false} LayoutSide(g: ChartOptions, side: Side)
    ensures Total(Layout(g).reservations, side)
         == (if g.y1.drawAxis && side == LeftMargin then Span(g.y1) else 0.0)
          + (if g.x.drawAxis && side == BottomMargin then XAxisHeight(g) else 0.0)
          + (if g.numAxes >= 2 && g.y2.drawAxis && side == RightMargin then Span(g.y2) else 0.0)
          + (if g.numAxes >= 3 && g.y3.drawAxis && side == LeftMargin then Span(g.y3) else 0.0)
          + (if g.numAxes >= 4 && g.y4.drawAxis && side == RightMargin then Span(g.y4) else 0.0)
    ensures Count(Layout(g).reservations, side)
         == (if g.y1.drawAxis && side == LeftMargin then 1 else 0)
          + (if g.x.drawAxis && side == BottomMargin then 1 else 0)
          + (if g.numAxes >= 2 && g.y2.drawAxis && side == RightMargin then 1 else 0)
          + (if g.numAxes >= 3 && g.y3.drawAxis && side == LeftMargin then 1 else 0)
          + (if g.numAxes >= 4 && g.y4.drawAxis && side == RightMargin then 1 else 0)
  {
    LayoutParts(g);
    TotalConcat5(ReserveIf(g.y1.drawAxis, LeftMargin, Span(g.y1)),
                 ReserveIf(g.x.drawAxis, BottomMargin, XAxisHeight(g)),
                 ReserveIf(g.numAxes >= 2 && g.y2.drawAxis, RightMargin, Span(g.y2)),
                 ReserveIf(g.numAxes >= 3 && g.y3.drawAxis, LeftMargin, Span(g.y3)),
                 ReserveIf(g.numAxes >= 4 && g.y4.drawAxis, RightMargin, Span(g.y4)),
                 side);
  }

  /** Left: y1 whenever it is drawn, whatever the axis count, plus y3 when a
      third axis exists and is drawn. Right: y2 and y4 likewise. Bottom: the x
      band exactly when the x axis is drawn. */
  lemma {:induction false} LayoutTotals(g: ChartOptions)
    ensures Total(Layout(g).reservations, LeftMargin)
         == (if g.y1.drawAxis then Span(g.y1) else 0.0)
          + (if g.numAxes >= 3 && g.y3.drawAxis then Span(g.y3) else 0.0)
    ensures Total(Layout(g).reservations, RightMargin)
         == (if g.numAxes >= 2 && g.y2.drawAxis then Span(g.y2) else 0.0)
          + (if g.numAxes >= 4 && g.y4.drawAxis then Span(g.y4) else 0.0)
    ensures Total(Layout(g).reservations, BottomMargin)
         == (if g.x.drawAxis then XAxisHeight(g) else 0.0)
    ensures Count(Layout(g).reservations, BottomMargin) == (if g.x.drawAxis then 1 else 0)
  {
    LayoutSide(g, LeftMargin);
    LayoutSide(g, RightMargin);
    LayoutSide(g, BottomMargin);
  }

  lemma {:induction false} TotalConcat5(a: seq<Reservation>, b: seq<Reservation>, c: seq<Reservation>,
                                        d: seq<Reservation>, e: seq<Reservation>, side: Side)
    ensures Total(a + b + c + d + e, side)
         == Total(a, side) + Total(b, side) + Total(c, side) + Total(d, side) + Total(e, side)
    ensures Count(a + b + c + d + e, side)
         == Count(a, side) + Count(b, side) + Count(c, side) + Count(d, side) + Count(e, side)
  {
    TotalConcat(a, b, side);
    TotalConcat(a + b, c, side);
    TotalConcat(a + b + c, d, side);
    TotalConcat(a + b + c + d, e, side);
  }

  /** One drawn y axis 50px wide with 3px ticks, and an x axis with a 12px font
      and 3px ticks and no explicit height: 56px left, 18px bottom, nothing right. */
  lemma SingleAxisScenario(g: ChartOptions)
    requires g.numAxes == 1 && g.xAxisHeight == 0.0
    requires g.y1.drawAxis && g.y1.labelWidth == 50.0 && g.y1.tickSize == 3.0
    requires g.x.drawAxis && g.x.fontSize == 12.0 && g.x.tickSize == 3.0
    ensures Total(Layout(g).reservations, LeftMargin) == 56.0
    ensures Total(Layout(g).reservations, BottomMargin) == 18.0
    ensures Total(Layout(g).reservations, RightMargin) == 0.0
    ensures Layout(g).tooManyAxes == None
  {
    LayoutTotals(g);
  }
}

=== FILE: placement.dfy ===
/** Where the plugin puts labels: the column of each y slot (written out twice
    in the source, once for headers and once for tick labels), the vertical
    anchor of a y tick label and the horizontal clamp of an x tick label. */
module Placement {
  import opened Chart
  import Layout

  /** The `left` of an axis header, following the header loop's branches:
      y1 and y2 hug the plot area, y3 stacks outside y1 when y1 is drawn and
      y4 stacks relative to y2 when y2 is drawn; otherwise they take the
      inner axis' column. */
  function HeaderColumn(g: ChartOptions, area: Area, s: Slot): (left: real)
    ensures s == Y1 ==> left + g.y1.labelWidth + g.y1.tickSize == area.x
    ensures s == Y2 ==> left - g.y2.tickSize == area.x + area.w
    ensures s == Y3 ==> left + (if g.y1.drawAxis then g.y3.labelWidth + g.y3.tickSize else 0.0)
                        + g.y1.labelWidth + g.y1.tickSize == area.x
    ensures s == Y4 ==> left - (if g.y2.drawAxis then g.y4.labelWidth + g.y4.tickSize else 0.0)
                        - g.y2.tickSize == area.x + area.w
  {
    match s
    case Y1 => area.x - g.y1.labelWidth - g.y1.tickSize
    case Y2 => area.x + area.w + g.y2.tickSize
    case Y3 =>
      var y1TickPosition := area.x - g.y1.labelWidth - g.y1.tickSize;
      if g.y1.drawAxis then y1TickPosition - g.y3.labelWidth - g.y3.tickSize else y1TickPosition
    case Y4 =>
      var y2TickPosition := area.x + area.w + g.y2.tickSize;
      if g.y2.drawAxis then y2TickPosition + g.y4.labelWidth + g.y4.tickSize else y2TickPosition
  }

  /** The `left` of a y tick label, following the tick loop's own copy of the
      rule (which reads the tick's axis options through its option getter);
      it always agrees with the header column of the same slot. */
  function TickColumn(g: ChartOptions, area: Area, s: Slot): (left: real)
    ensures left == HeaderColumn(g, area, s)
  {
    var own := AxisOf(g, s);
    match s
    case Y1 => area.x - own.labelWidth - own.tickSize
    case Y2 => area.x + area.w + own.tickSize
    case Y3 =>
      var y1TickPosition := area.x - g.y1.labelWidth - g.y1.tickSize;
      if g.y1.drawAxis then y1TickPosition - own.labelWidth - own.tickSize else y1TickPosition
    case Y4 =>
      var y2TickPosition := area.x + area.w + g.y2.tickSize;
      if g.y2.drawAxis then y2TickPosition + own.labelWidth + own.tickSize else y2TickPosition
  }

  predicate NonNegative(a: AxisOptions) {
    a.labelWidth >= 0.0 && a.tickSize >= 0.0
  }

  /** With non-negative widths and tick sizes, the y1, y2 and stacked y3
      labels lie inside the margins that `layout` reserved, and each leaves
      its own tick size free on the side facing the plot or the inner axis. */
  lemma ColumnsWithinReservation(g: ChartOptions, area: Area)
    requires NonNegative(g.y1) && NonNegative(g.y2) && NonNegative(g.y3)
    ensures HeaderColumn(g, area, Y1) + g.y1.labelWidth + g.y1.tickSize == area.x
    ensures area.x - Layout.Span(g.y1) <= HeaderColumn(g, area, Y1)
    ensures HeaderColumn(g, area, Y2) == area.x + area.w + g.y2.tickSize
    ensures HeaderColumn(g, area, Y2) + g.y2.labelWidth <= area.x + area.w + Layout.Span(g.y2)
    ensures g.y1.drawAxis ==>
      HeaderColumn(g, area, Y3) + g.y3.labelWidth + g.y3.tickSize == HeaderColumn(g, area, Y1)
      && area.x - Layout.Span(g.y1) - Layout.Span(g.y3) <= HeaderColumn(g, area, Y3)
    ensures !g.y1.drawAxis ==> HeaderColumn(g, area, Y3) == HeaderColumn(g, area, Y1)
    ensures !g.y2.drawAxis ==> HeaderColumn(g, area, Y4) == HeaderColumn(g, area, Y2)
  {
  }

  /** y4 is pushed right by its OWN width and tick size, not by y2's width:
      when y4 is narrower than y2 (less y4's tick size) its labels start
      inside y2's labels. */
  lemma Y4StartsInsideY2(g: ChartOptions, area: Area)
    requires g.y2.drawAxis
    requires g.y4.labelWidth + g.y4.tickSize < g.y2.labelWidth
    ensures HeaderColumn(g, area, Y4) < HeaderColumn(g, area, Y2) + g.y2.labelWidth
  {
  }

  /** ... and when y4 is much wider than y2 its labels run past the margin
      reserved on the right for y2 and y4 together. */
  lemma Y4PastReservation(g: ChartOptions, area: Area)
    requires g.y2.drawAxis
    requires g.y4.labelWidth > g.y2.labelWidth + g.y2.tickSize + g.y4.tickSize
    ensures HeaderColumn(g, area, Y4) + g.y4.labelWidth
          > area.x + area.w + Layout.Span(g.y2) + Layout.Span(g.y4)
  {
  }

  /** The larger of v and 0: a top above the canvas is moved down to its edge. */
  function ClampTop(v: real): (t: real)
    ensures t >= 0.0 && t >= v
    ensures t == v || t == 0.0
  {
    if v < 0.0 then 0.0 else v
  }

  /** The vertical anchor of a y tick label at fraction `pos` of the plot
      area's height, for the tick's own axis font size: centred on the tick
      but never above the canvas top, and bottom-anchored instead when the
      label and a 3px margin would pass the canvas bottom. */
  function YAnchor(area: Area, pos: real, fontSize: real, canvasHeight: real): (a: VAnchor)
    ensures a.Top? || a.BottomEdge?
    ensures a.Top? ==> 0.0 <= a.top && a.top + fontSize + 3.0 <= canvasHeight
    ensures a.Top? && area.y + pos * area.h - fontSize / 2.0 >= 0.0 ==>
              a.top == area.y + pos * area.h - fontSize / 2.0
    ensures a.Top? && area.y + pos * area.h - fontSize / 2.0 < 0.0 ==> a.top == 0.0
    ensures a.BottomEdge? <==>
              (if area.y + pos * area.h - fontSize / 2.0 < 0.0 then 0.0
               else area.y + pos * area.h - fontSize / 2.0) + fontSize + 3.0 > canvasHeight
  {
    var y := area.y + pos * area.h;
    var top := ClampTop(y - fontSize / 2.0);
    if top + fontSize + 3.0 > canvasHeight then BottomEdge else Top(top)
  }

  /** A tick at the top of a 300px plot area that starts 10px down, with a
      12px font, sits at 4px (= 10 - 6); one that would start above the
      canvas is clamped to 0. */
  lemma YAnchorScenario()
    ensures YAnchor(Area(0.0, 10.0, 100.0, 300.0), 0.0, 12.0, 400.0) == Top(4.0)
    ensures YAnchor(Area(0.0, 4.0, 100.0, 300.0), 0.0, 12.0, 400.0) == Top(0.0)
    ensures YAnchor(Area(0.0, 10.0, 100.0, 300.0), 1.0, 12.0, 315.0) == BottomEdge
  {
  }

  datatype XPlace = XPlace(left: real, align: Align)

  /** The horizontal placement of an x tick label of width `w` whose centre is
      at fraction `pos` of the plot area's width: centred when it fits, else
      flush with the canvas' right edge, and flush with 0 if it still starts
      left of the canvas. */
  function XPlacement(area: Area, pos: real, w: real, canvasWidth: real): (p: XPlace)
    ensures p.left >= 0.0
    ensures w <= canvasWidth ==> p.left + w <= canvasWidth
    ensures p.align == Centered || p.align == FlushLeft || p.align == FlushRight
    ensures p.align == Centered <==>
              0.0 <= area.x + pos * area.w - w / 2.0 && area.x + pos * area.w + w / 2.0 <= canvasWidth
    ensures p.align == Centered ==> p.left == area.x + pos * area.w - w / 2.0
    ensures p.align == FlushRight <==>
              area.x + pos * area.w + w / 2.0 > canvasWidth && canvasWidth - w >= 0.0
    ensures p.align == FlushRight ==> p.left + w == canvasWidth
    ensures p.align == FlushLeft ==> p.left == 0.0
  {
    var x := area.x + pos * area.w;
    var left := x - w / 2.0;
    var p := if left + w > canvasWidth then XPlace(canvasWidth - w, FlushRight) else XPlace(left, Centered);
    if p.left < 0.0 then XPlace(0.0, FlushLeft) else p
  }
}
